=== FILE: README.md ===
# Polio data map: a Dafny model of its data-to-colour pipeline and playback

The page draws a world choropleth of polio surveillance metrics (vaccine
coverage and incident rate) per country and year. It has a year slider, a
play/pause/restart button and a global trend chart. This project models the
pure part of `static/js/viz.js`:

- **Geography**: the startup filter that drops the geometries with ids 10 and
  304 (the ISO 3166 numeric codes of Antarctica and Greenland) from the
  topology and keeps the rest in order.
- **Records / MetricsIndex**: the parsed metric rows. The nest
  `year -> id -> rows` is built by a fold over the rows. `filterData` is the
  per-year projection `id -> {metric: value}`. It copies the active metric only
  when the value is not `null` or `undefined`, and it reads only the first row
  of each group.
- **Classifier**: `getColor`. An empty projection gets `#F0F0F0`. Otherwise a
  coverage bucket and an incidents bucket are computed, and the rank
  `coverageBucket * n + incidentsBucket` indexes the nine-colour palette, with
  `n = floor(sqrt(9)) = 3`.
- **View**: one frame as `controlsUpdated`/`step` produce it. It is
  `filterData` for the active metric, followed by the fill `update` gives every
  drawn geometry.
- **GlobalSeries**: `processGlobal`. Rows are grouped by year in order of first
  appearance, with sums of incidents, total incidents and population, and the
  mean of the numeric coverages.
- **Playback**: the play button handler, the timer's `step` and the slider.
  These form a state machine over `{button text, timer pending, year}`.

Modelling choices:

- A field of a parsed row is `Value = Undefined | Null | NullText | Num(real)`.
  `NullText` is the text "null", which `getColor` handles separately.
- Years are integers. The script keeps them as strings and compares them
  loosely with `== 2019`.
- The threshold scale is not part of the repository. It is modelled as "bucket =
  number of cut points at or below the value". Only the first
  `min(|domain|, |range| - 1) = 2` cut points are used, because a threshold
  scale consults only as many cut points as its range has gaps. So the third cut
  points (100 and 1) are never reached (`Classifier.ThirdCutUnreachable`), and
  every rank lies in 0..8.
- `getColor` classifies these values exactly like the number 0: a missing key,
  an `undefined` value, `null`, and "null" (which it turns into `null`, and
  which the scale compares as 0).
- The metric the page projects is fixed to `incidents`. `coverage` is therefore
  always missing and falls in bucket 0, so every drawn colour comes from the
  first palette row (`View.Render`, `Classifier.IncidentsOnlyFirstRow`).
- `filterData` for a year that is not a key of the nest throws, because it asks
  for the keys of `undefined`. This is modelled as `None`. In `step` the throw
  happens before the year is advanced, so playback stalls on such a year
  (`Playback.MissingYearStalls`). The set of indexed years is a parameter of the
  playback functions.
- The timer is a boolean. A timer fire (`Tick`) runs one `step` while an
  interval is pending, and does nothing once the interval has been cleared.

Behaviour of the script that a reader might not expect, modelled as written:

- A click on "Restart" sets the year to 1980 and the text to "Play", then runs
  exactly one `step` (viz.js:233-237). That step draws 1980 and leaves the year
  at 1981. The click does not start the timer, so playback does not resume
  until "Play" is clicked again.
- The step for 2019 clears the timer and shows "Restart", but it still draws
  2019 and then advances the year to 2020 (viz.js:249-266).
- Only the metric `incidents` is ever projected (viz.js:16, 77): `filterData`
  wraps its single metric argument in a one-element list.

## Model

| member | source | states |
|---|---|---|
| Geography.DropRedundant | static/js/viz.js:52 | a geometry is kept iff it was in the input and its id is neither 10 nor 304; never more geometries than given |
| Geography.DropRedundantConcat | static/js/viz.js:52 | the filter distributes over concatenation, so kept geometries keep their relative order |
| Geography.DropRedundantSingle | static/js/viz.js:10 | a single geometry is dropped exactly when its id is 10 or 304 |
| Geography.DropRedundantKeepsOthers | static/js/viz.js:52 | geometries with other ids come through unchanged and in order |
| Geography.DropRedundantIdempotent | static/js/viz.js:52 | filtering twice equals filtering once |
| Geography.DropRedundantLength | static/js/viz.js:52 | exactly the geometries carrying ids 10 or 304 are removed, counted |
| MetricsIndex.Insert | static/js/viz.js:55-59 | adding a row makes its year and id keys present, makes its (year, id) group the rows already there followed by the row (just `[row]` for a new pair), and leaves every other year and every other id of its year unchanged |
| MetricsIndex.Build | static/js/viz.js:55-59 | the nest's year keys are exactly the years of the rows |
| MetricsIndex.Project | static/js/viz.js:76-81 | a projection holds at most the requested metric, holds it iff the row's value is neither null nor undefined (so "null" text is kept), and then with the row's value |
| MetricsIndex.GroupHead | static/js/viz.js:55-59 | a (year, id) group is non-empty iff some row has that year and id, and its element 0 is the first such row |
| MetricsIndex.BuildGroups | static/js/viz.js:55-59 | the nest has a year key iff a row has that year, an id key iff a row has both, and each leaf holds exactly that pair's rows in input order |
| MetricsIndex.BuildAt | static/js/viz.js:55-59 | the same grouping at one (year, id) pair |
| MetricsIndex.BuildWellFormed | static/js/viz.js:55-59 | every leaf of the nest is non-empty and holds only rows of its own year and id |
| MetricsIndex.FilterData | static/js/viz.js:68-85 | None iff the year is not a key (the script throws); otherwise the ids are exactly the year's ids, and each projection holds at most the requested metric, present iff the first row's value is neither null nor undefined, with that value |
| MetricsIndex.FilterDataReadsHeadsOnly | static/js/viz.js:74-83 | only element 0 of each group is read: indexes agreeing on keys and heads give the same projection |
| MetricsIndex.FilterBuilt | static/js/viz.js:68-85 | on the nest of the rows: a projection exists iff some row has the year, its ids are those of the year's rows, and each region's entry is projected from its first row of that year |
| Classifier.FloorSqrt | static/js/viz.js:26 | the result is the integer square root: r*r <= k < (r+1)*(r+1) |
| Classifier.PaletteSide | static/js/viz.js:17-26 | n = floor(sqrt(9)) is 3 |
| Classifier.CountAtMost | static/js/viz.js:27-28 | helper for the threshold scales: the count never exceeds the cut points, is 0 when the value is below every cut point and is all of them when it reaches every one |
| Classifier.ThresholdScale | static/js/viz.js:27-28 | a bucket is below the range size and at most the number of cut points |
| Classifier.AxisNumber | static/js/viz.js:102-104 | the number an axis scale compares: the stored number when the key is present and numeric, and 0 for a missing key, undefined, null and "null" |
| Classifier.CoverageBucket | static/js/viz.js:106 | the coverage bucket counts which of the cut points 50 and 85 the coverage number reaches |
| Classifier.IncidentsBucket | static/js/viz.js:107 | the incidents bucket counts which of the cut points 0.0001 and 0.5 the incidents number reaches |
| Classifier.Rank | static/js/viz.js:106-108 | rank = coverage bucket * 3 + incidents bucket, each bucket below 3, and the rank indexes the palette |
| Classifier.ColorOf | static/js/viz.js:99-111 | the colour is #F0F0F0 iff the projection is empty, a palette colour iff it is not, and then the palette entry at 3 * coverage bucket + incidents bucket |
| Classifier.CountAtMostMonotone | static/js/viz.js:27-28 | counting cut points at or below a value is monotone in the value |
| Classifier.BucketsMonotone | static/js/viz.js:106-107 | raising either axis value never lowers that axis's bucket |
| Classifier.AxisMissingIsZero | static/js/viz.js:102-104 | an undefined, null or "null" value, or a missing key, yields the same axis number as 0 |
| Classifier.MissingClassifiedAsZero | static/js/viz.js:102-107 | a missing, undefined, null or "null" metric is coloured exactly as the value 0 |
| Classifier.EffectiveCuts | static/js/viz.js:27-28 | coverage bucket = [x >= 50] + [x >= 85] and incidents bucket = [x >= 0.0001] + [x >= 0.5]: only two cut points per axis are consulted |
| Classifier.CountOfTwo | static/js/viz.js:27-28 | with two cut points, the bucket counts which of them the value reaches |
| Classifier.ThirdCutUnreachable | static/js/viz.js:27-28 | values from the second cut point upward share the top bucket 2, so the cut points 100 and 1 are never reached; values below the first cut point are in bucket 0 |
| Classifier.IncidentsOnlyFirstRow | static/js/viz.js:102-110 | a projection holding only incidents is coloured by the incidents bucket alone, from the first palette row |
| View.FillOf | static/js/viz.js:135-141 | a region gets #F0F0F0 iff it has no projection or an empty one, and a palette colour otherwise |
| View.Render | static/js/viz.js:176-180 | a frame exists iff the year is indexed, has one fill per drawn geometry, and every fill is #F0F0F0 or one of the first three palette colours |
| View.FillFromRecords | static/js/viz.js:135-141 | the fill of one region in a frame drawn from the rows' nest is the fill picked by its first row of the year, or #F0F0F0 when it has none or no incidents |
| View.RenderFromRecords | static/js/viz.js:176-180 | each fill of a frame drawn from the rows' nest is #F0F0F0 when the region has no row for the year or its first row has no incidents, and otherwise the first-row palette colour picked by that row's incidents value |
| View.ProjectedFill | static/js/viz.js:76-81 | a row's projection of the active metric is coloured #F0F0F0 when its incidents value is null or undefined, and otherwise by the first palette row at the column its incidents value reaches |
| GlobalSeries.YearGroup | static/js/viz.js:186-188 | the group of a year is never longer than the rows |
| GlobalSeries.YearGroupMembers | static/js/viz.js:186-188 | a row is in a year's group iff it is one of the rows and has that year |
| GlobalSeries.Addend | static/js/viz.js:190-193 | a sum adds a numeric value as it is and skips null, undefined and text, adding 0 |
| GlobalSeries.Total | static/js/viz.js:190-193 | the model of `d3.sum` over one column: the sum of the numeric values, each added as its Addend; its properties are stated in TotalWithoutNumbers, TotalConcat and AggregateAppend |
| GlobalSeries.Mean | static/js/viz.js:192 | the model of `d3.mean` over one column: undefined iff no value is counted; that it is the sum over the count is stated in Ratio, and when nothing is counted in TallyZero |
| GlobalSeries.TotalWithoutNumbers | static/js/viz.js:190-193 | a sum over rows without numbers is 0 |
| GlobalSeries.SumsZeroWithoutNumbers | static/js/viz.js:190-193 | the incidents, total-incidents or population sum of a year whose rows hold no number in that column is 0 |
| GlobalSeries.Tally | static/js/viz.js:192 | the mean counts at most one value per row |
| GlobalSeries.TallyZero | static/js/viz.js:192 | nothing is counted, and the mean is undefined, iff no value of the column is a number |
| GlobalSeries.Ratio | static/js/viz.js:192 | the mean is undefined iff nothing was counted, and otherwise mean * count equals the sum |
| GlobalSeries.Aggregate | static/js/viz.js:189-195 | the rollup point carries the year it was asked for; its sums and mean are related to the rows by AggregateAppend, AggregateNoRows and MeanUndefinedWithoutCoverage |
| GlobalSeries.AggregateNoRows | static/js/viz.js:189-195 | a year without rows rolls up to zero sums and an undefined mean |
| GlobalSeries.YearsInOrder | static/js/viz.js:186-196 | no more years are listed than there are rows |
| GlobalSeries.YearsInOrderSpec | static/js/viz.js:186-196 | the grouped years are the rows' years, each listed once, in order of first appearance |
| GlobalSeries.YearsListedOccur | static/js/viz.js:186-188 | every listed year is the year of some row |
| GlobalSeries.YearsAllListed | static/js/viz.js:186-188 | every year of a row is listed |
| GlobalSeries.YearsFirstSeenOrder | static/js/viz.js:186-196 | listed years are ordered by their first appearance in the rows |
| GlobalSeries.YearsInOrderMembers | static/js/viz.js:186-196 | the listed years are exactly the set of the rows' years |
| GlobalSeries.FirstOfYear | static/js/viz.js:186-196 | helper for the year order of ProcessGlobal: the index returned is the first row of the year, or the length when the year does not occur |
| GlobalSeries.FirstOfYearAppend | static/js/viz.js:186-196 | helper for the year order of ProcessGlobal: appending a row keeps existing first appearances and makes the new row the first of a new year |
| GlobalSeries.ProcessGlobal | static/js/viz.js:185-211 | one point per distinct year of the rows, ordered by first appearance, each point the rollup of that year's rows |
| GlobalSeries.YearsCovered | static/js/viz.js:198-208 | helper for ProcessGlobal: points carrying the listed years one for one have a point for every listed year |
| GlobalSeries.Rollups | static/js/viz.js:198-208 | one rollup point per listed year, in the listed order |
| GlobalSeries.ProcessGlobalDistinct | static/js/viz.js:198-208 | no year gets two points |
| GlobalSeries.TotalConcat | static/js/viz.js:190-193 | sums and numeric-value counts split over concatenation |
| GlobalSeries.YearGroupAppend | static/js/viz.js:186-188 | a new row joins only the group of its own year, at the end |
| GlobalSeries.AggregateAppend | static/js/viz.js:189-195 | a new row changes only its own year's point: the sums grow by its numeric values and the mean gains its numeric coverage |
| GlobalSeries.TwoRowsOf1990 | static/js/viz.js:185-211 | rows of 1990 with incidents 2 and 3 give one point with incidents 5, and the mean coverage skips a null |
| GlobalSeries.MeanUndefinedWithoutCoverage | static/js/viz.js:192 | the mean coverage is undefined iff no row of the year has a numeric coverage |
| Playback.Step | static/js/viz.js:246-267 | an indexed year is drawn and advanced by exactly 1, an unindexed one stays; on 2019 the timer is cleared and the button reads Restart, otherwise button and timer are unchanged |
| Playback.Click | static/js/viz.js:222-243 | Pause: timer cleared, button Play; Restart: year 1980, button Play, timer as before, and exactly one step, which draws 1980 and leaves 1981 when 1980 is indexed and draws nothing and stays on 1980 when it is not; Play: timer started, button Pause; the timer runs iff the button reads Pause, before and after |
| Playback.Tick | static/js/viz.js:240 | with no pending interval a fire changes nothing; the timer-button invariant is preserved |
| Playback.Slide | static/js/viz.js:176-177 | the slider sets the year and draws it if indexed, leaving button and timer as they were |
| Playback.YearRange | static/js/viz.js:246-267 | helper for Ticks, Steps and PlayToEnd: the consecutive years from lo up to hi - 1, the years that successive steps draw |
| Playback.YearRangeConcat | static/js/viz.js:266 | helper for Ticks and Steps: the years a..b-1 followed by b..c-1 are the years a..c-1 |
| Playback.Ticks | static/js/viz.js:222-267 | k timer fires never move the year back, draw exactly the consecutive years from the start year up to the final year, and keep the timer running iff the button reads Pause |
| Playback.Steps | static/js/viz.js:246-267 | k steps never move the year back and draw exactly the consecutive years from the start year up to the final year |
| Playback.Run | static/js/viz.js:145-267 | any sequence of clicks, timer fires and slider moves keeps the timer running iff the button reads Pause |
| Playback.PlayingAdvances | static/js/viz.js:246-267 | while playing, with the year plus k at most 2019 and every year passed over indexed, k fires advance the year by exactly k and draw each year in turn |
| Playback.PlayToEnd | static/js/viz.js:249-266 | when every year from the start year through 2019 is indexed, playing from a year up to 2019 draws every year through 2019 in order and ends with the button on Restart, the timer cleared and the year 2020 |
| Playback.TicksSplit | static/js/viz.js:240 | a + b fires are a fires followed by b fires |
| Playback.StoppedIsFrozen | static/js/viz.js:229 | with the interval cleared, any number of fires changes nothing and draws nothing |
| Playback.PauseFreezes | static/js/viz.js:227-231 | after a click on Pause the year does not advance however many fires follow |
| Playback.PastTheEndNeverFinishesAgain | static/js/viz.js:249-266 | steps past 2019 never take the 2019 branch again: the button and the timer stay and the year only grows |
| Playback.SlideThenTick | static/js/viz.js:145-149 | for a slider year that is indexed and is not 2019, a slider move while playing leaves the timer running, and the next fire draws the slider's year and advances from it |
| Playback.MissingYearStalls | static/js/viz.js:249-266 | on a year missing from the index, however many fires follow, the year never advances and nothing is drawn; before 2019 the state does not change at all, while on 2019 the first fire still clears the timer and offers Restart |
| Playback.RestartDrawsFirstYearOnly | static/js/viz.js:233-237 | when 1980 is indexed, clicking Restart draws 1980 once, leaves the year at 1981 with the button on Play and no timer, and later fires do nothing |

## Left out

- SVG, DOM and map rendering are not modelled: the projection, the graticule, `draw`, the transitions, the mouse handlers and the text of the year label. The map's fill choice is what is modelled (`View`).
- `time_series`, `global_time_series` and `getCoords` are not part of this model, because they are defined in other scripts. The trend series is modelled up to the call that hands it over. The pinned-region state (`countryData`, `geo`), which only feeds them, is left out as well: neither `showTooltip`'s filter of the rows by id (viz.js:217) nor the `countryData != null` test in `step` (viz.js:261) is modelled.
- Loading the two datasets (`Promise.all`, `d3.json`) and `topojson.feature` are asynchronous I/O and library code. Geometries and rows are given as parsed values.
- Interval timing is not modelled. The timer is a flag, and each fire is one abstract event.
- The `countryDropdown` handler and `showTooltip` are left out. They are DOM lookups feeding the external chart.
- `getMetrics` is left out: it is never called, and its `filter` calls discard their results.
- Console logging and the never-read `moving` flag are left out.
- The first frame that `init` draws through `controlsUpdated` is covered by `Playback.Slide` and `View.Render` at the slider's initial year. The slider's initial value itself is HTML and is not modelled.
- Field values that are numeric strings, or text other than "null", and NaN are not modelled. A field is a number, `null`, missing, or the text "null" that `getColor` tests for (viz.js:103-104).
- Region ids are integers in both datasets. The script compares them in two ways that agree only when the ids are JSON numbers: the startup filter (viz.js:52) uses `includes`, which compares strictly, so a topology id written as the text "10" or "010" would be kept; the nest (viz.js:58) and the fill lookup (viz.js:136) use ids as object keys, which are strings, so a row id 4 and a row id "4" would join the same geometry. `Geography.DropRedundant`'s promise that no kept geometry has id 10 or 304 holds for numeric ids only.
- `Playback.Click` on a Play button while an interval is already pending would start a second interval and lose the first. The boolean timer cannot represent this. It never happens from a state where the timer runs iff the button reads Pause, and every transition keeps that invariant.
- Numbers are exact reals, not IEEE doubles. Rounding in `d3.sum` and `d3.mean` and in comparisons of doubles is not modelled.
- The d3 release is assumed to be version 5, as `d3.nest` (removed in version 6) implies, with a d3-scale that accepts the domain and range in the `scaleThreshold` constructor (2.2 or later) and predates the `x != null` guard of later releases; under that guard `null` would get no bucket instead of comparing as 0.

=== FILE: classifier.dfy ===
/** The bivariate colour classifier: coverage and incidents are each bucketed
    by a threshold scale, and the pair of buckets picks one of nine colours. */
module Classifier {
  import opened Records

  /** The 3 x 3 bivariate palette, row = coverage bucket, column = incidents
      bucket. */
  const Palette: seq<string> :=
    ["#d6abd9", "#ff3fab", "#be006b", "#8bbce3", "#882e94", "#67045e", "#3e90d0", "#3a2489", "#2b0055"]

  /** Fill of a region that has nothing to show. */
  const NoData: string := "#F0F0F0"

  /** Integer square root, as `Math.floor(Math.sqrt(k))` gives it on a perfect
      square or any other natural number. */
  function FloorSqrt(k: nat): (r: nat)
    ensures r * r <= k < (r + 1) * (r + 1)
  {
    if k == 0 then 0
    else
      var s := FloorSqrt(k - 1);
      if (s + 1) * (s + 1) <= k then s + 1 else s
  }

  /** Buckets per axis: the side of the square palette. */
  const N: nat := FloorSqrt(|Palette|)

  lemma PaletteSide()
    ensures N == 3
  {
  }

  /** Cut points given to the two threshold scales. */
  const CoverageDomain: seq<real> := [50.0, 85.0, 100.0]
  const IncidentsDomain: seq<real> := [0.0001, 0.5, 1.0]

  /** Number of cut points at or below x. */
  function CountAtMost(cuts: seq<real>, x: real): (c: nat)
    ensures c <= |cuts|
    ensures (forall i :: 0 <= i < |cuts| ==> x < cuts[i]) ==> c == 0
    ensures (forall i :: 0 <= i < |cuts| ==> cuts[i] <= x) ==> c == |cuts|
  {
    if |cuts| == 0 then 0
    else (if cuts[0] <= x then 1 else 0) + CountAtMost(cuts[1..], x)
  }

  /** A threshold scale with the given cut points and the outputs
      0 .. rangeSize-1. The scale only consults as many cut points as its
      range has gaps, min(|domain|, rangeSize - 1); the rest are ignored. */
  function ThresholdScale(domain: seq<real>, rangeSize: nat, x: real): (b: nat)
    requires rangeSize >= 1
    ensures b < rangeSize
    ensures b <= |domain|
  {
    var used := if |domain| < rangeSize - 1 then |domain| else rangeSize - 1;
    CountAtMost(domain[..used], x)
  }

  /** The number the scale compares for one axis. A key that is absent, or
      holds `undefined`, gets the destructuring default 0; `null` and the text
      "null" (turned into `null`) compare like 0. */
  function AxisNumber(p: Projection, m: Metric): (x: real)
    ensures m in p && p[m].Num? ==> x == p[m].x
    ensures !(m in p && p[m].Num?) ==> x == 0.0
  {
    if m !in p then 0.0
    else match p[m]
      case Num(x) => x
      case Undefined => 0.0
      case Null => 0.0
      case NullText => 0.0
  }

  /** Coverage bucket: 0 below 50, 1 from 50, 2 from 85. */
  function CoverageBucket(p: Projection): (b: nat)
    ensures var x := AxisNumber(p, Coverage);
      b == (if x >= 50.0 then 1 else 0) + (if x >= 85.0 then 1 else 0)
  {
    EffectiveCuts(AxisNumber(p, Coverage));
    ThresholdScale(CoverageDomain, N, AxisNumber(p, Coverage))
  }

  /** Incidents bucket: 0 below 0.0001, 1 from 0.0001, 2 from 0.5. */
  function IncidentsBucket(p: Projection): (b: nat)
    ensures var x := AxisNumber(p, Incidents);
      b == (if x >= 0.0001 then 1 else 0) + (if x >= 0.5 then 1 else 0)
  {
    EffectiveCuts(AxisNumber(p, Incidents));
    ThresholdScale(IncidentsDomain, N, AxisNumber(p, Incidents))
  }

  /** The palette index of a non-empty projection. With three outputs per
      scale each bucket is at most 2, so the index stays within the nine
      colours. */
  function Rank(p: Projection): (rank: nat)
    ensures rank == 3 * CoverageBucket(p) + IncidentsBucket(p)
    ensures CoverageBucket(p) < 3 && IncidentsBucket(p) < 3
    ensures rank < |Palette|
  {
    PaletteSide();
    CoverageBucket(p) * N + IncidentsBucket(p)
  }

  /** The fill of a projection: the no-data colour when it has no entries, a
      palette colour otherwise. */
  function ColorOf(p: Projection): (c: string)
    ensures c == NoData <==> |p| == 0
    ensures c in Palette <==> |p| > 0
    ensures |p| > 0 ==> c == Palette[3 * CoverageBucket(p) + IncidentsBucket(p)]
  {
    if |p| == 0 then NoData else Palette[Rank(p)]
  }

  /** Bucketing is monotone: a larger value never gets a smaller bucket. */
  lemma {:induction false} CountAtMostMonotone(cuts: seq<real>, x: real, y: real)
    requires x <= y
    ensures CountAtMost(cuts, x) <= CountAtMost(cuts, y)
    decreases |cuts|
  {
    if |cuts| > 0 {
      CountAtMostMonotone(cuts[1..], x, y);
    }
  }

  /** Raising coverage with incidents fixed never lowers the coverage bucket,
      and symmetrically for incidents. */
  lemma BucketsMonotone(p: Projection, q: Projection)
    ensures AxisNumber(p, Coverage) <= AxisNumber(q, Coverage) ==> CoverageBucket(p) <= CoverageBucket(q)
    ensures AxisNumber(p, Incidents) <= AxisNumber(q, Incidents) ==> IncidentsBucket(p) <= IncidentsBucket(q)
  {
    PaletteSide();
    if AxisNumber(p, Coverage) <= AxisNumber(q, Coverage) {
      CountAtMostMonotone(CoverageDomain[..2], AxisNumber(p, Coverage), AxisNumber(q, Coverage));
    }
    if AxisNumber(p, Incidents) <= AxisNumber(q, Incidents) {
      CountAtMostMonotone(IncidentsDomain[..2], AxisNumber(p, Incidents), AxisNumber(q, Incidents));
    }
  }

  /** The axis number of a missing, `undefined`, `null` or "null" value is
      the number of 0. */
  lemma AxisMissingIsZero(p: Projection, m: Metric, v: Value, axis: Metric)
    requires v == Undefined || v == Null || v == NullText
    ensures AxisNumber(p[m := v], axis) == AxisNumber(p[m := Num(0.0)], axis)
    ensures AxisNumber(p - {m}, axis) == AxisNumber(p[m := Num(0.0)], axis)
  {
  }

  /** A missing, `undefined`, `null` or "null" value is classified exactly as
      the number 0. */
  lemma MissingClassifiedAsZero(p: Projection, m: Metric, v: Value)
    requires v == Undefined || v == Null || v == NullText
    ensures ColorOf(p[m := v]) == ColorOf(p[m := Num(0.0)])
    ensures |p - {m}| > 0 ==> ColorOf(p - {m}) == ColorOf(p[m := Num(0.0)])
  {
    var z := p[m := Num(0.0)];
    AxisMissingIsZero(p, m, v, Coverage);
    AxisMissingIsZero(p, m, v, Incidents);
    assert m in z && m in p[m := v];
    assert Rank(p[m := v]) == Rank(z);
    assert Rank(p - {m}) == Rank(z);
  }

  /** Only the first two cut points of each scale are consulted. */
  lemma EffectiveCuts(x: real)
    ensures ThresholdScale(CoverageDomain, N, x) == (if x >= 50.0 then 1 else 0) + (if x >= 85.0 then 1 else 0)
    ensures ThresholdScale(IncidentsDomain, N, x) == (if x >= 0.0001 then 1 else 0) + (if x >= 0.5 then 1 else 0)
  {
    PaletteSide();
    assert CoverageDomain[..2] == [50.0, 85.0];
    assert IncidentsDomain[..2] == [0.0001, 0.5];
    assert ThresholdScale(CoverageDomain, N, x) == CountAtMost([50.0, 85.0], x);
    assert ThresholdScale(IncidentsDomain, N, x) == CountAtMost([0.0001, 0.5], x);
    CountOfTwo(50.0, 85.0, x);
    CountOfTwo(0.0001, 0.5, x);
  }

  lemma CountOfTwo(a: real, b: real, x: real)
    ensures CountAtMost([a, b], x) == (if a <= x then 1 else 0) + (if b <= x then 1 else 0)
  {
  }

  /** The third cut point of each scale is never reached: every value at or
      above the second cut point lands in the top bucket. */
  lemma ThirdCutUnreachable(x: real)
    ensures x >= 85.0 ==> ThresholdScale(CoverageDomain, N, x) == 2
    ensures x >= 0.5 ==> ThresholdScale(IncidentsDomain, N, x) == 2
    ensures x < 50.0 ==> ThresholdScale(CoverageDomain, N, x) == 0
    ensures x < 0.0001 ==> ThresholdScale(IncidentsDomain, N, x) == 0
  {
    EffectiveCuts(x);
  }

  /** With only incidents projected, as the page does, the colour is in the
      first palette row, chosen by the incidents bucket alone. */
  lemma IncidentsOnlyFirstRow(p: Projection)
    requires p.Keys == {Incidents}
    ensures ColorOf(p) == Palette[IncidentsBucket(p)]
    ensures ColorOf(p) in Palette[..3]
  {
    assert AxisNumber(p, Coverage) == 0.0;
    ThirdCutUnreachable(0.0);
    assert CoverageBucket(p) == 0;
    assert Incidents in p;
  }
}

=== FILE: geography.dfy ===
/** The startup filter over the topology's country geometries. */
module Geography {

  /** A country shape from the topology: its numeric region code and its arcs,
      which the model never looks into. */
  datatype Geometry = Geometry(id: int, arcs: seq<int>)

  /** Region codes that are dropped before drawing: the ISO 3166 numeric codes
      of Antarctica (010) and Greenland (304). */
  const Redundant: set<int> := {10, 304}

  /** The geometries kept for drawing: every one whose id is not redundant, in
      the order of the topology. */
  function DropRedundant(gs: seq<Geometry>): (kept: seq<Geometry>)
    ensures |kept| <= |gs|
    ensures forall g :: g in kept <==> g in gs && g.id !in Redundant
  {
    if |gs| == 0 then []
    else
      var rest := DropRedundant(gs[..|gs| - 1]);
      var g := gs[|gs| - 1];
      assert forall h :: h in gs <==> h in gs[..|gs| - 1] || h == g;
      if g.id in Redundant then rest else rest + [g]
  }

  /** The filter works element by element, so it distributes over
      concatenation: nothing is reordered across a kept geometry. */
  lemma {:induction false} DropRedundantConcat(a: seq<Geometry>, b: seq<Geometry>)
    ensures DropRedundant(a + b) == DropRedundant(a) + DropRedundant(b)
    decreases |b|
  {
    if |b| == 0 {
      assert a + b == a;
    } else {
      var b' := b[..|b| - 1];
      assert (a + b)[..|a + b| - 1] == a + b';
      assert (a + b)[|a + b| - 1] == b[|b| - 1];
      DropRedundantConcat(a, b');
    }
  }

  /** A single geometry is kept exactly when its id is not redundant. */
  lemma DropRedundantSingle(g: Geometry)
    ensures DropRedundant([g]) == (if g.id in Redundant then [] else [g])
  {
  }

  /** Geometries with ordinary ids come through unchanged and in order. */
  lemma {:induction false} DropRedundantKeepsOthers(gs: seq<Geometry>)
    requires forall i :: 0 <= i < |gs| ==> gs[i].id !in Redundant
    ensures DropRedundant(gs) == gs
    decreases |gs|
  {
    if |gs| > 0 {
      DropRedundantKeepsOthers(gs[..|gs| - 1]);
      assert gs[..|gs| - 1] + [gs[|gs| - 1]] == gs;
    }
  }

  /** Filtering twice is filtering once. */
  lemma {:induction false} DropRedundantIdempotent(gs: seq<Geometry>)
    ensures DropRedundant(DropRedundant(gs)) == DropRedundant(gs)
  {
    var kept := DropRedundant(gs);
    forall i | 0 <= i < |kept|
      ensures kept[i].id !in Redundant
    {
      assert kept[i] in kept;
    }
    DropRedundantKeepsOthers(kept);
  }

  /** The number of geometries dropped is the number carrying a redundant id. */
  function CountRedundant(gs: seq<Geometry>): (n: nat) {
    if |gs| == 0 then 0
    else CountRedundant(gs[..|gs| - 1]) + (if gs[|gs| - 1].id in Redundant then 1 else 0)
  }

  lemma {:induction false} DropRedundantLength(gs: seq<Geometry>)
    ensures |DropRedundant(gs)| == |gs| - CountRedundant(gs)
    decreases |gs|
  {
    if |gs| > 0 {
      DropRedundantLength(gs[..|gs| - 1]);
    }
  }
}

=== FILE: global_series.dfy ===
/** The global trend series: the rows grouped by year, in the order the years
    first appear, each group reduced to sums and a mean. */
module GlobalSeries {
  import opened Wrappers
  import opened Records
  import opened MetricsIndex

  /** One point of the trend chart. `coverage` is None where the script's mean
      is `undefined`. */
  datatype Point = Point(year: int, incidents: real, incidentsTotal: real, coverage: Option<real>, population: real)

  /** The rows of one year, in input order. */
  function YearGroup(rs: seq<Record>, year: int): (g: seq<Record>)
    ensures |g| <= |rs|
  {
    if |rs| == 0 then []
    else (if rs[0].year == year then [rs[0]] else []) + YearGroup(rs[1..], year)
  }

  /** A row is in its year's group exactly when it is a row of that year. */
  lemma {:induction false} YearGroupMembers(rs: seq<Record>, year: int)
    ensures forall r :: r in YearGroup(rs, year) <==> r in rs && r.year == year
    decreases |rs|
  {
    if |rs| > 0 {
      YearGroupMembers(rs[1..], year);
      assert rs == [rs[0]] + rs[1..];
    }
  }

  /** What a sum adds for one value: a number as it is; `null`, `undefined`
      and text are skipped, which adds nothing. */
  function Addend(v: Value): (a: real)
    ensures v.Num? ==> a == v.x
    ensures !v.Num? ==> a == 0.0
  {
    if v.Num? then v.x else 0.0
  }

  /** Sum of column `m` over the rows. */
  function Total(g: seq<Record>, m: Metric): (t: real) {
    if |g| == 0 then 0.0 else Addend(Field(g[0], m)) + Total(g[1..], m)
  }

  /** A sum without numbers is 0, whatever else the column holds. */
  lemma {:induction false} TotalWithoutNumbers(g: seq<Record>, m: Metric)
    ensures (forall k :: 0 <= k < |g| ==> !Field(g[k], m).Num?) ==> Total(g, m) == 0.0
    decreases |g|
  {
    if |g| > 0 {
      TotalWithoutNumbers(g[1..], m);
      assert forall k :: 0 < k < |g| ==> g[1..][k - 1] == g[k];
    }
  }

  /** Number of rows whose column `m` is a number: the values a mean counts. */
  function Tally(g: seq<Record>, m: Metric): (c: nat)
    ensures c <= |g|
  {
    if |g| == 0 then 0 else (if Field(g[0], m).Num? then 1 else 0) + Tally(g[1..], m)
  }

  /** Nothing is counted exactly when no value of the column is a number; the
      mean is then undefined. */
  lemma {:induction false} TallyZero(g: seq<Record>, m: Metric)
    ensures Tally(g, m) == 0 <==> forall k :: 0 <= k < |g| ==> !Field(g[k], m).Num?
    ensures Mean(g, m).None? <==> forall k :: 0 <= k < |g| ==> !Field(g[k], m).Num?
    decreases |g|
  {
    if |g| > 0 {
      TallyZero(g[1..], m);
      assert forall k :: 0 < k < |g| ==> g[1..][k - 1] == g[k];
    }
  }

  /** Mean of the numeric values of column `m`; None when there are none. */
  function Mean(g: seq<Record>, m: Metric): (mean: Option<real>)
    ensures mean.None? <==> Tally(g, m) == 0
  {
    Ratio(Total(g, m), Tally(g, m))
  }

  /** `sum / count` as d3's mean returns it: `undefined` when nothing was
      counted. */
  function Ratio(total: real, count: nat): (q: Option<real>)
    ensures q.None? <==> count == 0
    ensures q.Some? ==> q.value * (count as real) == total
  {
    if count == 0 then None else Some(total / (count as real))
  }

  /** The rollup of one year. A year without rows rolls up to zero sums and
      no mean. */
  function Aggregate(rs: seq<Record>, year: int): (pt: Point)
    ensures pt.year == year
  {
    var g := YearGroup(rs, year);
    Point(year, Total(g, Incidents), Total(g, IncidentsTotal), Mean(g, Coverage), Total(g, Population))
  }

  /** Index of the first row of the year, or |rs| when there is none. */
  function FirstOfYear(rs: seq<Record>, year: int): (k: nat)
    ensures k <= |rs|
    ensures k < |rs| ==> rs[k].year == year
    ensures forall j :: 0 <= j < k ==> rs[j].year != year
  {
    if |rs| == 0 then 0
    else if rs[0].year == year then 0
    else 1 + FirstOfYear(rs[1..], year)
  }

  /** The distinct years, in the order they first appear. */
  function YearsInOrder(rs: seq<Record>): (ys: seq<int>)
    ensures |ys| <= |rs|
  {
    if |rs| == 0 then []
    else
      var ys := YearsInOrder(rs[..|rs| - 1]);
      if rs[|rs| - 1].year in ys then ys else ys + [rs[|rs| - 1].year]
  }

  lemma FirstOfYearAppend(rs: seq<Record>, r: Record, year: int)
    ensures FirstOfYear(rs + [r], year)
         == if FirstOfYear(rs, year) < |rs| then FirstOfYear(rs, year)
            else if r.year == year then |rs| else |rs| + 1
  {
    var k := FirstOfYear(rs + [r], year);
    var k' := FirstOfYear(rs, year);
    if k' < |rs| {
      assert (rs + [r])[k'] == rs[k'];
    } else {
      assert (rs + [r])[|rs|] == r;
    }
  }

  lemma {:induction false} YearsOfAsFirst(rs: seq<Record>, year: int)
    ensures year in YearsOf(rs) <==> FirstOfYear(rs, year) < |rs|
  {
    YearsOfWitness(rs, year);
  }

  /** The years come out once each, every year of the rows among them, and in
      order of first appearance. */
  lemma YearsInOrderSpec(rs: seq<Record>)
    ensures forall i :: 0 <= i < |YearsInOrder(rs)| ==> FirstOfYear(rs, YearsInOrder(rs)[i]) < |rs|
    ensures forall year :: FirstOfYear(rs, year) < |rs| ==> year in YearsInOrder(rs)
    ensures forall i, j :: 0 <= i < j < |YearsInOrder(rs)| ==>
      FirstOfYear(rs, YearsInOrder(rs)[i]) < FirstOfYear(rs, YearsInOrder(rs)[j])
  {
    YearsListedOccur(rs);
    YearsAllListed(rs);
    YearsFirstSeenOrder(rs);
  }

  lemma {:induction false} YearsListedOccur(rs: seq<Record>)
    ensures forall i :: 0 <= i < |YearsInOrder(rs)| ==> FirstOfYear(rs, YearsInOrder(rs)[i]) < |rs|
    decreases |rs|
  {
    if |rs| > 0 {
      var front := rs[..|rs| - 1];
      var r := rs[|rs| - 1];
      assert front + [r] == rs;
      YearsListedOccur(front);
      var ys := YearsInOrder(front);
      forall i | 0 <= i < |YearsInOrder(rs)|
        ensures FirstOfYear(rs, YearsInOrder(rs)[i]) < |rs|
      {
        FirstOfYearAppend(front, r, YearsInOrder(rs)[i]);
      }
    }
  }

  lemma {:induction false} YearsAllListed(rs: seq<Record>)
    ensures forall year :: FirstOfYear(rs, year) < |rs| ==> year in YearsInOrder(rs)
    decreases |rs|
  {
    if |rs| > 0 {
      var front := rs[..|rs| - 1];
      var r := rs[|rs| - 1];
      assert front + [r] == rs;
      YearsAllListed(front);
      forall year | FirstOfYear(rs, year) < |rs|
        ensures year in YearsInOrder(rs)
      {
        FirstOfYearAppend(front, r, year);
      }
    }
  }

  lemma {:induction false} YearsFirstSeenOrder(rs: seq<Record>)
    ensures forall i, j :: 0 <= i < j < |YearsInOrder(rs)| ==>
      FirstOfYear(rs, YearsInOrder(rs)[i]) < FirstOfYear(rs, YearsInOrder(rs)[j])
    decreases |rs|
  {
    if |rs| > 0 {
      var front := rs[..|rs| - 1];
      var r := rs[|rs| - 1];
      assert front + [r] == rs;
      var ys := YearsInOrder(front);
      var out := YearsInOrder(rs);
      assert out == if r.year in ys then ys else ys + [r.year];
      YearsFirstSeenOrder(front);
      YearsListedOccur(front);
      forall i, j | 0 <= i < j < |out|
        ensures FirstOfYear(rs, out[i]) < FirstOfYear(rs, out[j])
      {
        assert out[i] == ys[i];
        FirstOfYearAppend(front, r, ys[i]);
        if j < |ys| {
          assert out[j] == ys[j];
          FirstOfYearAppend(front, r, ys[j]);
        } else {
          assert out[j] == r.year;
          YearsAllListed(front);
          FirstOfYearAppend(front, r, r.year);
        }
      }
    }
  }

  /** A year without rows rolls up to zero sums and no mean. */
  lemma AggregateNoRows(rs: seq<Record>, year: int)
    requires forall k :: 0 <= k < |rs| ==> rs[k].year != year
    ensures Aggregate(rs, year) == Point(year, 0.0, 0.0, None, 0.0)
  {
    YearGroupMembers(rs, year);
  }

  /** A sum column of a year whose rows hold no number in that column sums
      to 0, as `d3.sum` does when it finds nothing to add. */
  lemma SumsZeroWithoutNumbers(rs: seq<Record>, year: int, m: Metric)
    requires forall k :: 0 <= k < |rs| && rs[k].year == year ==> !Field(rs[k], m).Num?
    ensures m == Incidents ==> Aggregate(rs, year).incidents == 0.0
    ensures m == IncidentsTotal ==> Aggregate(rs, year).incidentsTotal == 0.0
    ensures m == Population ==> Aggregate(rs, year).population == 0.0
  {
    var g := YearGroup(rs, year);
    YearGroupMembers(rs, year);
    forall k | 0 <= k < |g|
      ensures !Field(g[k], m).Num?
    {
      assert g[k] in rs;
      var j :| 0 <= j < |rs| && rs[j] == g[k];
    }
    TotalWithoutNumbers(g, m);
  }

  /** The years listed are exactly the years of the rows. */
  lemma {:induction false} YearsInOrderMembers(rs: seq<Record>)
    ensures forall i :: 0 <= i < |YearsInOrder(rs)| ==> YearsInOrder(rs)[i] in YearsOf(rs)
    ensures forall year :: year in YearsOf(rs) ==> year in YearsInOrder(rs)
  {
    YearsInOrderSpec(rs);
    forall year
      ensures year in YearsOf(rs) <==> FirstOfYear(rs, year) < |rs|
    {
      YearsOfAsFirst(rs, year);
    }
  }

  /** The global series: one point per distinct year, in order of first
      appearance, each point the rollup of that year's rows. */
  function ProcessGlobal(rs: seq<Record>): (pts: seq<Point>)
    ensures forall i :: 0 <= i < |pts| ==> pts[i].year in YearsOf(rs)
    ensures forall year :: year in YearsOf(rs) ==> exists i :: 0 <= i < |pts| && pts[i].year == year
    ensures forall i, j :: 0 <= i < j < |pts| ==> FirstOfYear(rs, pts[i].year) < FirstOfYear(rs, pts[j].year)
    ensures forall i :: 0 <= i < |pts| ==> pts[i] == Aggregate(rs, pts[i].year)
  {
    var ys := YearsInOrder(rs);
    YearsInOrderSpec(rs);
    YearsInOrderMembers(rs);
    var pts := Rollups(rs, ys);
    YearsCovered(pts, ys);
    pts
  }

  /** Points that carry the listed years, one for one, have a point for
      every listed year. */
  lemma YearsCovered(pts: seq<Point>, ys: seq<int>)
    requires |pts| == |ys|
    requires forall i :: 0 <= i < |ys| ==> pts[i].year == ys[i]
    ensures forall year :: year in ys ==> exists i :: 0 <= i < |pts| && pts[i].year == year
  {
    forall year | year in ys
      ensures exists i :: 0 <= i < |pts| && pts[i].year == year
    {
      var i :| 0 <= i < |ys| && ys[i] == year;
      assert pts[i].year == year;
    }
  }

  /** The rollup of each listed year, in the order listed. */
  function Rollups(rs: seq<Record>, ys: seq<int>): (pts: seq<Point>)
    ensures |pts| == |ys|
    ensures forall i :: 0 <= i < |ys| ==> pts[i] == Aggregate(rs, ys[i]) && pts[i].year == ys[i]
  {
    if |ys| == 0 then [] else [Aggregate(rs, ys[0])] + Rollups(rs, ys[1..])
  }

  /** No year is listed twice. */
  lemma ProcessGlobalDistinct(rs: seq<Record>)
    ensures forall i, j :: 0 <= i < j < |ProcessGlobal(rs)| ==> ProcessGlobal(rs)[i].year != ProcessGlobal(rs)[j].year
  {
  }

  lemma {:induction false} TotalConcat(a: seq<Record>, b: seq<Record>, m: Metric)
    ensures Total(a + b, m) == Total(a, m) + Total(b, m)
    ensures Tally(a + b, m) == Tally(a, m) + Tally(b, m)
    decreases |a|
  {
    if |a| == 0 {
      assert a + b == b;
    } else {
      assert (a + b)[1..] == a[1..] + b;
      TotalConcat(a[1..], b, m);
    }
  }

  lemma {:induction false} YearGroupAppend(rs: seq<Record>, r: Record, year: int)
    ensures YearGroup(rs + [r], year) == YearGroup(rs, year) + (if r.year == year then [r] else [])
    decreases |rs|
  {
    var tail := if r.year == year then [r] else [];
    if |rs| == 0 {
      assert rs + [r] == [r];
      assert [r][1..] == [];
    } else {
      var head := if rs[0].year == year then [rs[0]] else [];
      var all := rs + [r];
      assert all[0] == rs[0];
      assert all[1..] == rs[1..] + [r];
      assert YearGroup(all, year) == head + YearGroup(rs[1..] + [r], year);
      YearGroupAppend(rs[1..], r, year);
      assert YearGroup(rs, year) == head + YearGroup(rs[1..], year);
      assert head + (YearGroup(rs[1..], year) + tail) == (head + YearGroup(rs[1..], year)) + tail;
    }
  }

  /** One more row changes the rollup of its own year only, by adding its
      values to the sums and its coverage, if numeric, to the mean. */
  lemma AggregateAppend(rs: seq<Record>, r: Record, year: int)
    ensures year != r.year ==> Aggregate(rs + [r], year) == Aggregate(rs, year)
    ensures year == r.year ==>
      var before := Aggregate(rs, year);
      var after := Aggregate(rs + [r], year);
      && after.incidents == before.incidents + Addend(r.incidents)
      && after.incidentsTotal == before.incidentsTotal + Addend(r.incidentsTotal)
      && after.population == before.population + Addend(r.population)
      && Tally(YearGroup(rs + [r], year), Coverage) == Tally(YearGroup(rs, year), Coverage) + (if r.coverage.Num? then 1 else 0)
      && Total(YearGroup(rs + [r], year), Coverage) == Total(YearGroup(rs, year), Coverage) + Addend(r.coverage)
  {
    YearGroupAppend(rs, r, year);
    var g := YearGroup(rs, year);
    if year == r.year {
      assert [r][1..] == [];
      TotalConcat(g, [r], Incidents);
      TotalConcat(g, [r], IncidentsTotal);
      TotalConcat(g, [r], Population);
      TotalConcat(g, [r], Coverage);
    } else {
      assert g + [] == g;
    }
  }

  /** Two rows of 1990 with incidents 2 and 3 give one point with incidents
      5; the mean coverage skips the `null`. */
  lemma TwoRowsOf1990()
    ensures
      var rs := [Record(4, 1990, "Afghanistan", Num(80.0), Num(2.0), Num(20.0), Num(1000.0)),
                 Record(8, 1990, "Albania", Null, Num(3.0), Num(30.0), Num(500.0))];
      ProcessGlobal(rs) == [Point(1990, 5.0, 50.0, Some(80.0), 1500.0)]
  {
  }

  /** A year whose rows carry no numeric coverage has no mean. */
  lemma MeanUndefinedWithoutCoverage(rs: seq<Record>, year: int)
    ensures Aggregate(rs, year).coverage.None? <==>
      forall k :: 0 <= k < |rs| && rs[k].year == year ==> !rs[k].coverage.Num?
  {
    var g := YearGroup(rs, year);
    YearGroupMembers(rs, year);
    TallyZero(g, Coverage);
    if forall k :: 0 <= k < |rs| && rs[k].year == year ==> !rs[k].coverage.Num? {
      forall k | 0 <= k < |g|
        ensures !g[k].coverage.Num?
      {
        assert g[k] in rs;
        var j :| 0 <= j < |rs| && rs[j] == g[k];
      }
    } else {
      var k :| 0 <= k < |rs| && rs[k].year == year && rs[k].coverage.Num?;
      assert rs[k] in g;
      var j :| 0 <= j < |g| && g[j] == rs[k];
    }
  }
}

=== FILE: metrics_index.dfy ===
/** The two-level lookup `year -> region id -> rows` that the script builds
    once with a nest keyed by year and then by id, and the per-year projection
    read out of it. */
module MetricsIndex {
  import opened Wrappers
  import opened Records

  /** Each leaf holds the rows of one (year, id) pair in input order. */
  type Index = map<int, map<int, seq<Record>>>

  /** Whether a row belongs to the (year, id) group. */
  predicate Matches(r: Record, year: int, id: int) {
    r.year == year && r.id == id
  }

  /** Adds one row at the end of its group, creating the year and the id
      entries when they are new. */
  function Insert(idx: Index, r: Record): (idx': Index)
    ensures idx'.Keys == idx.Keys + {r.year}
    ensures r.year in idx' && r.id in idx'[r.year]
    ensures idx'[r.year][r.id] == (if r.year in idx && r.id in idx[r.year] then idx[r.year][r.id] else []) + [r]
    ensures idx'[r.year].Keys == (if r.year in idx then idx[r.year].Keys else {}) + {r.id}
    ensures |idx'[r.year][r.id]| > 0 && idx'[r.year][r.id][|idx'[r.year][r.id]| - 1] == r
    ensures r.year in idx && r.id in idx[r.year] ==> idx'[r.year][r.id][..|idx'[r.year][r.id]| - 1] == idx[r.year][r.id]
    ensures forall year :: year in idx && year != r.year ==> idx'[year] == idx[year]
    ensures r.year in idx ==> forall id :: id in idx[r.year] && id != r.id ==> idx'[r.year][id] == idx[r.year][id]
  {
    var inner := if r.year in idx then idx[r.year] else map[];
    var group := if r.id in inner then inner[r.id] else [];
    idx[r.year := inner[r.id := group + [r]]]
  }

  /** The nest: a left fold of Insert over the rows. */
  function Build(rs: seq<Record>): (idx: Index)
    ensures idx.Keys == YearsOf(rs)
  {
    if |rs| == 0 then map[]
    else
      var front := rs[..|rs| - 1];
      assert rs == front + [rs[|rs| - 1]];
      assert YearsOf(rs) == YearsOf(front) + {rs[|rs| - 1].year};
      Insert(Build(front), rs[|rs| - 1])
  }

  /** Reference definition of a group: the rows of the pair, in input order. */
  function Group(rs: seq<Record>, year: int, id: int): (g: seq<Record>)
    ensures |g| <= |rs|
  {
    if |rs| == 0 then []
    else (if Matches(rs[0], year, id) then [rs[0]] else []) + Group(rs[1..], year, id)
  }

  lemma {:induction false} GroupAppend(rs: seq<Record>, r: Record, year: int, id: int)
    ensures Group(rs + [r], year, id)
         == Group(rs, year, id) + (if Matches(r, year, id) then [r] else [])
    decreases |rs|
  {
    var tail := if Matches(r, year, id) then [r] else [];
    if |rs| == 0 {
      assert rs + [r] == [r];
      assert [r][1..] == [];
    } else {
      var head := if Matches(rs[0], year, id) then [rs[0]] else [];
      var all := rs + [r];
      assert all[0] == rs[0];
      assert all[1..] == rs[1..] + [r];
      assert Group(all, year, id) == head + Group(rs[1..] + [r], year, id);
      GroupAppend(rs[1..], r, year, id);
      assert Group(rs, year, id) == head + Group(rs[1..], year, id);
      assert head + (Group(rs[1..], year, id) + tail) == (head + Group(rs[1..], year, id)) + tail;
    }
  }

  /** A group is non-empty exactly when some row has that year and id, and
      its head is the first such row. */
  lemma {:induction false} GroupHead(rs: seq<Record>, year: int, id: int)
    ensures Group(rs, year, id) != [] <==> exists k :: 0 <= k < |rs| && Matches(rs[k], year, id)
    ensures Group(rs, year, id) != [] ==>
      Group(rs, year, id)[0] == rs[FirstMatch(rs, year, id)]
    decreases |rs|
  {
    if |rs| > 0 {
      GroupHead(rs[1..], year, id);
      if !Matches(rs[0], year, id) {
        forall k | 0 < k < |rs| && Matches(rs[k], year, id)
          ensures exists j :: 0 <= j < |rs[1..]| && Matches(rs[1..][j], year, id)
        {
          assert rs[1..][k - 1] == rs[k];
        }
      }
    }
  }

  /** Index of the first row of the pair, or |rs| when there is none. */
  function FirstMatch(rs: seq<Record>, year: int, id: int): (k: nat)
    ensures k <= |rs|
    ensures k < |rs| ==> Matches(rs[k], year, id)
    ensures forall j :: 0 <= j < k ==> !Matches(rs[j], year, id)
  {
    if |rs| == 0 then 0
    else if Matches(rs[0], year, id) then 0
    else 1 + FirstMatch(rs[1..], year, id)
  }

  /** The years present in the rows. */
  function YearsOf(rs: seq<Record>): (years: set<int>) {
    set r | r in rs :: r.year
  }

  lemma {:induction false} YearsOfWitness(rs: seq<Record>, year: int)
    ensures year in YearsOf(rs) <==> exists k :: 0 <= k < |rs| && rs[k].year == year
  {
    if exists k :: 0 <= k < |rs| && rs[k].year == year {
      var k :| 0 <= k < |rs| && rs[k].year == year;
      assert rs[k] in rs;
    }
  }

  /** What every nest leaf satisfies: it is non-empty, and holds only rows of
      its own year and id. */
  ghost predicate WellFormed(idx: Index) {
    forall year, id :: year in idx && id in idx[year] ==>
      idx[year][id] != [] &&
      forall k :: 0 <= k < |idx[year][id]| ==> Matches(idx[year][id][k], year, id)
  }

  /** The nest groups exactly as the reference says: a year is a key iff some
      row has it, an id is a key under a year iff some row has both, and the
      leaf is the group of that pair in input order. */
  lemma BuildGroups(rs: seq<Record>)
    ensures forall year :: year in Build(rs) <==> year in YearsOf(rs)
    ensures forall year, id :: year in Build(rs) ==>
      (id in Build(rs)[year] <==> Group(rs, year, id) != [])
    ensures forall year, id :: year in Build(rs) && id in Build(rs)[year] ==>
      Build(rs)[year][id] == Group(rs, year, id)
  {
    forall year, id
      ensures year in Build(rs) <==> year in YearsOf(rs)
      ensures year in Build(rs) ==> (id in Build(rs)[year] <==> Group(rs, year, id) != [])
      ensures year in Build(rs) && id in Build(rs)[year] ==> Build(rs)[year][id] == Group(rs, year, id)
    {
      BuildAt(rs, year, id);
    }
  }

  /** BuildGroups at one (year, id) pair, by induction over the rows. */
  lemma {:induction false} BuildAt(rs: seq<Record>, year: int, id: int)
    ensures year in Build(rs) <==> year in YearsOf(rs)
    ensures year in Build(rs) ==> (id in Build(rs)[year] <==> Group(rs, year, id) != [])
    ensures year in Build(rs) && id in Build(rs)[year] ==> Build(rs)[year][id] == Group(rs, year, id)
    decreases |rs|
  {
    if |rs| > 0 {
      var front := rs[..|rs| - 1];
      var r := rs[|rs| - 1];
      assert front + [r] == rs;
      assert Build(rs) == Insert(Build(front), r);
      BuildAt(front, year, id);
      GroupAppend(front, r, year, id);
      assert YearsOf(rs) == YearsOf(front) + {r.year};
      if year !in YearsOf(front) {
        GroupHead(front, year, id);
        YearsOfWitness(front, year);
      }
    }
  }

  lemma {:induction false} BuildWellFormed(rs: seq<Record>)
    ensures WellFormed(Build(rs))
  {
    BuildGroups(rs);
    forall year, id | year in Build(rs) && id in Build(rs)[year]
      ensures forall k :: 0 <= k < |Group(rs, year, id)| ==> Matches(Group(rs, year, id)[k], year, id)
    {
      GroupMatches(rs, year, id);
    }
  }

  lemma {:induction false} GroupMatches(rs: seq<Record>, year: int, id: int)
    ensures forall k :: 0 <= k < |Group(rs, year, id)| ==> Matches(Group(rs, year, id)[k], year, id)
    decreases |rs|
  {
    if |rs| > 0 {
      GroupMatches(rs[1..], year, id);
    }
  }

  /** One region's projection: the metric is copied only when it is neither
      `null` nor `undefined`. */
  function Project(r: Record, m: Metric): (p: Projection)
    ensures p.Keys <= {m}
    ensures m in p <==> Field(r, m) != Null && Field(r, m) != Undefined
    ensures m in p ==> p[m] == Field(r, m)
  {
    if Present(Field(r, m)) then map[m := Field(r, m)] else map[]
  }

  /** The per-year projection. A year that is not a key makes the script throw
      (it asks for the keys of `undefined`), which is None here. */
  function FilterData(idx: Index, year: int, m: Metric): (r: Option<map<int, Projection>>)
    requires WellFormed(idx)
    ensures r.Some? <==> year in idx
    ensures r.Some? ==> r.value.Keys == idx[year].Keys
    ensures r.Some? ==> forall id :: id in r.value ==>
      r.value[id].Keys <= {m} &&
      (m in r.value[id] <==> Present(Field(idx[year][id][0], m))) &&
      (m in r.value[id] ==> r.value[id][m] == Field(idx[year][id][0], m))
  {
    if year !in idx then None
    else Some(map id | id in idx[year] :: Project(idx[year][id][0], m))
  }

  /** Only the head of each leaf is read: two indexes with the same keys and
      the same heads give the same projection. */
  lemma FilterDataReadsHeadsOnly(a: Index, b: Index, year: int, m: Metric)
    requires WellFormed(a) && WellFormed(b)
    requires a.Keys == b.Keys
    requires year in a && a[year].Keys == b[year].Keys
    requires forall id :: id in a[year] ==> a[year][id][0] == b[year][id][0]
    ensures FilterData(a, year, m) == FilterData(b, year, m)
  {
    var da := FilterData(a, year, m).value;
    var db := FilterData(b, year, m).value;
    forall id | id in da
      ensures da[id] == db[id]
    {
      assert da[id] == Project(a[year][id][0], m);
      assert db[id] == Project(b[year][id][0], m);
    }
    assert da == db;
  }

  /** The projection of the nest built from the rows, stated on the rows: it
      exists iff some row has the year, its ids are the ids of that year's
      rows, and each region's values come from its first row of that year. */
  lemma FilterBuilt(rs: seq<Record>, year: int, m: Metric)
    ensures WellFormed(Build(rs))
    ensures FilterData(Build(rs), year, m).Some? <==> exists k :: 0 <= k < |rs| && rs[k].year == year
    ensures FilterData(Build(rs), year, m).Some? ==>
      var data := FilterData(Build(rs), year, m).value;
      (forall id :: id in data <==> exists k :: 0 <= k < |rs| && Matches(rs[k], year, id)) &&
      (forall id :: id in data ==>
        FirstMatch(rs, year, id) < |rs| &&
        data[id] == Project(rs[FirstMatch(rs, year, id)], m))
  {
    BuildWellFormed(rs);
    BuildGroups(rs);
    var idx := Build(rs);
    YearsOfWitness(rs, year);
    if year in idx {
      var data := FilterData(idx, year, m).value;
      forall id
        ensures id in data <==> exists k :: 0 <= k < |rs| && Matches(rs[k], year, id)
      {
        GroupHead(rs, year, id);
      }
      forall id | id in data
        ensures FirstMatch(rs, year, id) < |rs|
        ensures data[id] == Project(rs[FirstMatch(rs, year, id)], m)
      {
        GroupHead(rs, year, id);
        assert idx[year][id] == Group(rs, year, id);
        assert data[id] == Project(idx[year][id][0], m);
      }
    }
  }
}

=== FILE: playback.dfy ===
/** The play button and its timer. The button's text is the state: "Play",
    "Pause" or "Restart". Clicks and timer fires are the transitions, and the
    slider can overwrite the year at any time. */
module Playback {

  datatype Label = Play | Pause | Restart

  /** `timerActive` is whether an interval is pending. The script keeps the
      year as a string; here it is the integer the string spells. */
  datatype State = State(button: Label, timerActive: bool, year: int)

  /** The state after an event, and the years whose frame was drawn, in
      order. A draw for a year the metrics index lacks throws in the script;
      such a year is not listed, and the rest of the handler does not run. */
  datatype Outcome = Outcome(state: State, drawn: seq<int>)

  const FirstYear: int := 1980
  const LastYear: int := 2019

  /** The timer runs exactly while the button offers to pause it. */
  predicate Consistent(s: State) {
    s.timerActive <==> s.button == Pause
  }

  /** One timer step. On the last year the timer is cleared and the button
      offers a restart, but the year is still drawn and then advanced. When
      the year is not indexed the draw throws and the year stays. */
  function Step(s: State, indexed: set<int>): (o: Outcome)
    ensures s.year in indexed ==> o.state.year == s.year + 1 && o.drawn == [s.year]
    ensures s.year !in indexed ==> o.state.year == s.year && o.drawn == []
    ensures s.year == LastYear ==> o.state.button == Restart && !o.state.timerActive
    ensures s.year != LastYear ==> o.state.button == s.button && o.state.timerActive == s.timerActive
  {
    var s' := if s.year == LastYear then s.(timerActive := false, button := Restart) else s;
    if s.year in indexed then Outcome(s'.(year := s.year + 1), [s.year])
    else Outcome(s', [])
  }

  /** A click on the button, dispatched on its text. */
  function Click(s: State, indexed: set<int>): (o: Outcome)
    ensures s.button == Pause ==> o == Outcome(State(Play, false, s.year), [])
    ensures s.button == Restart ==>
      o.state.button == Play && o.state.timerActive == s.timerActive &&
      (FirstYear in indexed ==> o.state.year == FirstYear + 1 && o.drawn == [FirstYear]) &&
      (FirstYear !in indexed ==> o.state.year == FirstYear && o.drawn == [])
    ensures s.button == Play ==> o == Outcome(State(Pause, true, s.year), [])
    ensures Consistent(s) ==> Consistent(o.state)
  {
    match s.button
    case Pause => Outcome(s.(timerActive := false, button := Play), [])
    case Restart => Step(s.(year := FirstYear, button := Play), indexed)
    case Play => Outcome(s.(timerActive := true, button := Pause), [])
  }

  /** A timer fire: a step while an interval is pending, nothing otherwise,
      since a cleared interval never fires again. */
  function Tick(s: State, indexed: set<int>): (o: Outcome)
    ensures !s.timerActive ==> o == Outcome(s, [])
    ensures Consistent(s) ==> Consistent(o.state)
  {
    if s.timerActive then Step(s, indexed) else Outcome(s, [])
  }

  /** The slider sets the year and draws it; the button and the timer are
      left alone. */
  function Slide(s: State, year: int, indexed: set<int>): (o: Outcome)
    ensures o.state.year == year
    ensures o.state.button == s.button && o.state.timerActive == s.timerActive
    ensures o.drawn == (if year in indexed then [year] else [])
  {
    Outcome(s.(year := year), if year in indexed then [year] else [])
  }

  /** k timer fires in a row, with their draws concatenated. The year never
      goes back, and the frames drawn are exactly the years passed over, in
      order. */
  function Ticks(s: State, k: nat, indexed: set<int>): (o: Outcome)
    ensures s.year <= o.state.year
    ensures o.drawn == YearRange(s.year, o.state.year)
    ensures Consistent(s) ==> Consistent(o.state)
    decreases k
  {
    if k == 0 then Outcome(s, [])
    else
      var first := Tick(s, indexed);
      var rest := Ticks(first.state, k - 1, indexed);
      YearRangeConcat(s.year, first.state.year, rest.state.year);
      Outcome(rest.state, first.drawn + rest.drawn)
  }

  /** k direct steps in a row, with their draws concatenated; the same
      bookkeeping as for timer fires. */
  function Steps(s: State, k: nat, indexed: set<int>): (o: Outcome)
    ensures s.year <= o.state.year
    ensures o.drawn == YearRange(s.year, o.state.year)
    decreases k
  {
    if k == 0 then Outcome(s, [])
    else
      var first := Step(s, indexed);
      var rest := Steps(first.state, k - 1, indexed);
      YearRangeConcat(s.year, first.state.year, rest.state.year);
      Outcome(rest.state, first.drawn + rest.drawn)
  }

  /** A user event: a button click, a timer fire or a slider move. */
  datatype Event = Clicked | Fired | Slid(to: int)

  /** The handlers run one after another, each to completion. */
  function Run(s: State, events: seq<Event>, indexed: set<int>): (o: Outcome)
    ensures Consistent(s) ==> Consistent(o.state)
    decreases |events|
  {
    if |events| == 0 then Outcome(s, [])
    else
      var first := match events[0]
        case Clicked => Click(s, indexed)
        case Fired => Tick(s, indexed)
        case Slid(year) => Slide(s, year, indexed);
      var rest := Run(first.state, events[1..], indexed);
      Outcome(rest.state, first.drawn + rest.drawn)
  }

  lemma YearRangeConcat(a: int, b: int, c: int)
    requires a <= b <= c
    ensures YearRange(a, b) + YearRange(b, c) == YearRange(a, c)
  {
    assert forall i :: 0 <= i < c - a ==> (YearRange(a, b) + YearRange(b, c))[i] == a + i;
  }

  /** The consecutive years lo .. hi-1. */
  function YearRange(lo: int, hi: int): (ys: seq<int>)
    requires lo <= hi
    ensures |ys| == hi - lo
    ensures forall i :: 0 <= i < |ys| ==> ys[i] == lo + i
    decreases hi - lo
  {
    if lo == hi then [] else [lo] + YearRange(lo + 1, hi)
  }

  /** While playing before the last year, each fire advances the year by
      exactly one, draws it, and keeps playing. */
  lemma {:induction false} PlayingAdvances(s: State, k: nat, indexed: set<int>)
    requires s.button == Pause && s.timerActive
    requires s.year + k <= LastYear
    requires forall y :: s.year <= y < s.year + k ==> y in indexed
    ensures Ticks(s, k, indexed) == Outcome(s.(year := s.year + k), YearRange(s.year, s.year + k))
    decreases k
  {
    if k > 0 {
      var next := s.(year := s.year + 1);
      assert Tick(s, indexed) == Outcome(next, [s.year]);
      PlayingAdvances(next, k - 1, indexed);
    }
  }

  /** Playing from any year up to the last draws every year through the last
      in order, then stops with the button offering a restart. */
  lemma PlayToEnd(s: State, indexed: set<int>)
    requires s.button == Pause && s.timerActive
    requires s.year <= LastYear
    requires forall y :: s.year <= y <= LastYear ==> y in indexed
    ensures Ticks(s, LastYear - s.year + 1, indexed)
         == Outcome(State(Restart, false, LastYear + 1), YearRange(s.year, LastYear + 1))
  {
    var k := LastYear - s.year;
    PlayingAdvances(s, k, indexed);
    TicksSplit(s, k, 1, indexed);
    var mid := s.(year := LastYear);
    assert Ticks(mid, 1, indexed) == Outcome(State(Restart, false, LastYear + 1), [LastYear]);
    assert YearRange(s.year, LastYear) + [LastYear] == YearRange(s.year, LastYear + 1);
  }

  lemma {:induction false} TicksSplit(s: State, a: nat, b: nat, indexed: set<int>)
    ensures Ticks(s, a + b, indexed)
         == Outcome(Ticks(Ticks(s, a, indexed).state, b, indexed).state,
                    Ticks(s, a, indexed).drawn + Ticks(Ticks(s, a, indexed).state, b, indexed).drawn)
    decreases a
  {
    if a > 0 {
      TicksSplit(Tick(s, indexed).state, a - 1, b, indexed);
      var first := Tick(s, indexed);
      var mid := Ticks(first.state, a - 1, indexed);
      var rest := Ticks(mid.state, b, indexed);
      assert first.drawn + (mid.drawn + rest.drawn) == (first.drawn + mid.drawn) + rest.drawn;
    }
  }

  /** With the timer off, as after a pause or once the end is reached, fires
      change nothing and draw nothing, however many there are. */
  lemma {:induction false} StoppedIsFrozen(s: State, k: nat, indexed: set<int>)
    requires !s.timerActive
    ensures Ticks(s, k, indexed) == Outcome(s, [])
    decreases k
  {
    if k > 0 {
      StoppedIsFrozen(s, k - 1, indexed);
    }
  }

  /** Pausing freezes the year for any number of fires. */
  lemma {:induction false} PauseFreezes(s: State, k: nat, indexed: set<int>)
    requires s.button == Pause
    ensures Ticks(Click(s, indexed).state, k, indexed) == Outcome(s.(button := Play, timerActive := false), [])
  {
    StoppedIsFrozen(Click(s, indexed).state, k, indexed);
  }

  /** Steps taken past the last year never take the last-year branch again:
      the button and the timer stay as they are and the year only grows. */
  lemma {:induction false} PastTheEndNeverFinishesAgain(s: State, k: nat, indexed: set<int>)
    requires s.year > LastYear
    ensures Steps(s, k, indexed).state.button == s.button
    ensures Steps(s, k, indexed).state.timerActive == s.timerActive
    ensures Steps(s, k, indexed).state.year >= s.year
    decreases k
  {
    if k > 0 {
      PastTheEndNeverFinishesAgain(Step(s, indexed).state, k - 1, indexed);
    }
  }

  /** A slider move while playing: the next fire continues from the slider's
      year, not from the year before the move. */
  lemma SlideThenTick(s: State, year: int, indexed: set<int>)
    requires s.button == Pause && s.timerActive
    requires year != LastYear && year in indexed
    ensures Tick(Slide(s, year, indexed).state, indexed) == Outcome(State(Pause, true, year + 1), [year])
  {
  }

  /** A year missing from the index stalls playback: the fire throws before
      the year is advanced, so the year never moves and nothing is drawn. On
      the last year the first fire still clears the timer and offers a
      restart; on any other year nothing changes at all. */
  lemma {:induction false} MissingYearStalls(s: State, k: nat, indexed: set<int>)
    requires s.year !in indexed
    ensures Ticks(s, k, indexed).state.year == s.year && Ticks(s, k, indexed).drawn == []
    ensures s.year != LastYear ==> Ticks(s, k, indexed) == Outcome(s, [])
    decreases k
  {
    if k > 0 {
      var first := Tick(s, indexed);
      assert first.state.year == s.year && first.drawn == [];
      assert s.year != LastYear ==> first == Outcome(s, []);
      MissingYearStalls(first.state, k - 1, indexed);
    }
  }

  /** From the restart button: one frame of the first year is drawn, the year
      moves on to the next, and the button offers play without starting the
      timer. */
  lemma {:induction false} RestartDrawsFirstYearOnly(s: State, k: nat, indexed: set<int>)
    requires s.button == Restart && Consistent(s)
    requires FirstYear in indexed
    ensures Click(s, indexed) == Outcome(State(Play, false, FirstYear + 1), [FirstYear])
    ensures Ticks(Click(s, indexed).state, k, indexed) == Outcome(State(Play, false, FirstYear + 1), [])
  {
    StoppedIsFrozen(State(Play, false, FirstYear + 1), k, indexed);
  }
}

=== FILE: records.dfy ===
/** The rows of the metrics dataset, as the map script sees them once the JSON
    has been parsed. */
module Records {

  /** A field of a parsed row. JSON gives numbers and `null`; a field can also
      be missing (`undefined`) or hold the text "null", which the colour
      classifier handles on its own. */
  datatype Value = Undefined | Null | NullText | Num(x: real)

  /** `v != null` in JavaScript's loose sense: neither `null` nor `undefined`. */
  predicate Present(v: Value) {
    v.NullText? || v.Num?
  }

  /** The metric columns a projection can copy. */
  datatype Metric = Coverage | Incidents | IncidentsTotal | Population

  /** One row per (region, year). The script reads `year` as a string key;
      here it is the integer the string spells. */
  datatype Record = Record(
    id: int,
    year: int,
    country: string,
    coverage: Value,
    incidents: Value,
    incidentsTotal: Value,
    population: Value)

  /** The column `m` of a row. */
  function Field(r: Record, m: Metric): (v: Value) {
    match m
    case Coverage => r.coverage
    case Incidents => r.incidents
    case IncidentsTotal => r.incidentsTotal
    case Population => r.population
  }

  /** What the map shows of one region for one year: metric name to value. */
  type Projection = map<Metric, Value>

  /** The metric the page keeps active; it is never changed. */
  const ActiveMetric: Metric := Incidents
}

=== FILE: view.dfy ===
/** One frame of the map: the active metric projected for a year, then one
    fill per drawn geometry. */
module View {
  import opened Wrappers
  import opened Records
  import opened MetricsIndex
  import opened Classifier
  import opened Geography

  /** The fill `update` gives one region: the classifier's colour when the
      region has a projection, the no-data colour when it has none. */
  function FillOf(data: map<int, Projection>, id: int): (c: string)
    ensures c == NoData <==> id !in data || |data[id]| == 0
    ensures c != NoData ==> c in Palette
  {
    if id in data then ColorOf(data[id]) else NoData
  }

  /** The fills of one frame for the year, in drawing order; None when the
      year is not a key of the index, where the script throws before any fill
      changes. */
  function Render(idx: Index, year: int, gs: seq<Geometry>): (r: Option<seq<string>>)
    requires WellFormed(idx)
    ensures r.Some? <==> year in idx
    ensures r.Some? ==> |r.value| == |gs|
    ensures r.Some? ==> forall i :: 0 <= i < |gs| ==> r.value[i] == NoData || r.value[i] in Palette[..3]
  {
    match FilterData(idx, year, ActiveMetric)
    case None => None
    case Some(data) =>
      var fills := seq(|gs|, i requires 0 <= i < |gs| => FillOf(data, gs[i].id));
      assert forall i :: 0 <= i < |gs| ==> fills[i] == NoData || fills[i] in Palette[..3] by {
        forall i | 0 <= i < |gs|
          ensures fills[i] == NoData || fills[i] in Palette[..3]
        {
          var id := gs[i].id;
          if id in data && |data[id]| > 0 {
            IncidentsOnlyFirstRow(data[id]);
          }
        }
      }
      Some(fills)
  }

  /** Column of the palette for an incidents value: the number of the two
      consulted cut points (0.0001 and 0.5) it reaches; the text "null"
      counts as 0. */
  function IncidentsColumn(v: Value): (column: nat) {
    var x := if v.Num? then v.x else 0.0;
    (if x >= 0.0001 then 1 else 0) + (if x >= 0.5 then 1 else 0)
  }

  /** Reference fill of a region, read straight off the rows: no-data when
      the region has no row for the year or its first row has no incidents,
      otherwise the first-row colour picked by the incidents value alone. */
  function ExpectedFill(rs: seq<Record>, year: int, id: int): (fill: string) {
    var k := FirstMatch(rs, year, id);
    if k == |rs| || !Present(rs[k].incidents) then NoData
    else Palette[IncidentsColumn(rs[k].incidents)]
  }

  /** The frame drawn from the nest of the rows agrees with the reference
      fill for every geometry. */
  lemma RenderFromRecords(rs: seq<Record>, year: int, gs: seq<Geometry>)
    ensures WellFormed(Build(rs))
    ensures Render(Build(rs), year, gs).Some? <==> exists k :: 0 <= k < |rs| && rs[k].year == year
    ensures Render(Build(rs), year, gs).Some? ==>
      forall i :: 0 <= i < |gs| ==> Render(Build(rs), year, gs).value[i] == ExpectedFill(rs, year, gs[i].id)
  {
    FilterBuilt(rs, year, ActiveMetric);
    var idx := Build(rs);
    if year in idx {
      var fills := Render(idx, year, gs).value;
      forall i | 0 <= i < |gs|
        ensures fills[i] == ExpectedFill(rs, year, gs[i].id)
      {
        FillFromRecords(rs, year, gs[i].id);
      }
    }
  }

  /** RenderFromRecords for one region. */
  lemma FillFromRecords(rs: seq<Record>, year: int, id: int)
    requires year in YearsOf(rs)
    ensures WellFormed(Build(rs))
    ensures FillOf(FilterData(Build(rs), year, ActiveMetric).value, id) == ExpectedFill(rs, year, id)
  {
    FilterBuilt(rs, year, ActiveMetric);
    var data := FilterData(Build(rs), year, ActiveMetric).value;
    if id in data {
      ProjectedFill(rs[FirstMatch(rs, year, id)]);
    }
  }

  /** The colour of one row's projection of the active metric: no-data when
      its incidents value is null or undefined, otherwise the first-row colour
      picked by that value. */
  lemma ProjectedFill(r: Record)
    ensures ColorOf(Project(r, ActiveMetric)) ==
      if Present(r.incidents) then Palette[IncidentsColumn(r.incidents)] else NoData
  {
    var p := Project(r, Incidents);
    if Present(r.incidents) {
      assert p.Keys == {Incidents};
      IncidentsOnlyFirstRow(p);
      assert IncidentsBucket(p) == IncidentsColumn(r.incidents);
    } else {
      assert |p| == 0;
    }
  }
}

=== FILE: wrappers.dfy ===
/** The optional-value datatype the model uses for JavaScript's `undefined`
    results and for lookups that throw in the script. */
module Wrappers {

  datatype Option<+T> = None | Some(value: T)
}
